=== FILE: README.md ===
# math-ocr pixel core in Dafny

This project models the integer pixel operations of the math-ocr preprocessing library and proves their properties. math-ocr is the front end of a recognizer for handwritten mathematical expressions. The operations modelled are:

- reshaping a pixel plane between its flat row-major layout and its 2D layout (`to2D`, `to1D`);
- binarising packed RGB pixels against a barrier (`maxContrast`);
- the odd-dimension kernel check of the unfinished `applyConvolution`;
- the 256-bin intensity histogram (`intensityHistogram`);
- the bar-chart plane that `intensityHistogramImage` builds before it calls the host image library.

The modules are:

- `Java` (java.dfy): Java `int` semantics that differ from Dafny's. It has the 32-bit range, wrap-around narrowing (`Wrap`), and truncating `/` and `%` (`Div`, `Rem`). It also has the exceptions the code can raise, as `Result.Throws(...)`, and `null`, as `Option.Null`.
- `Reshape` (reshape.dfy): `to2D`, `to1D` and the two round trips. `Chunks` and `Concat` are independent recursive definitions of "cut into rows" and "lay rows end to end". The loop methods are proved to compute them.
- `Contrast` (contrast.dfy): channel extraction from a packed pixel, and its inverse `Pack`. Also the truncated gray mean and `maxContrast`.
- `Convolution` (convolution.dfy): the kernel check of `applyConvolution`.
- `Histogram` (histogram.dfy): `intensityHistogram`, specified by `Occurrences` (counting) and `Tally` (bin-by-bin counting).
- `HistogramImage` (histogram_image.dfy): the maximum bin, the bar heights and the 256-row black/white plane.

Java exceptions are modelled as results, not excluded by preconditions:

- A negative dimension in `to2D` gives `NegativeArraySize`.
- `ArrayIndexOutOfBounds` comes from three cases. In `to2D`, it is too few pixels. In `to1D`, it is an empty plane or a row shorter than row 0. In `intensityHistogram`, it is a row shorter than row 0, or a value outside 0..255 within the width of row 0.
- A histogram whose maximum is 0 gives `Arithmetic` (division by zero).
- An even kernel dimension gives `DimensionMismatch`.

## Model

| member | source | states |
|---|---|---|
| `Reshape.To2D` | math-ocr/src/dezzy/mathocr/RawImageFunctions.java:60-70 | A negative `rows` or `cols` throws NegativeArraySize. Otherwise, `rows * cols` greater than the pixel count throws ArrayIndexOutOfBounds. Otherwise the result is the first `rows` consecutive runs of `cols` pixels. |
| `Reshape.ChunksAt` | math-ocr/src/dezzy/mathocr/RawImageFunctions.java:61-67 | For `row < rows` and `col < cols`, the index `col + row*cols` is within the pixels, and cell `(row, col)` of the `to2D` result is the pixel at that index. |
| `Reshape.ChunksShape` | math-ocr/src/dezzy/mathocr/RawImageFunctions.java:61 | Every row of the `to2D` result has exactly `cols` elements. |
| `Reshape.ChunksReadsPrefix` | math-ocr/src/dezzy/mathocr/RawImageFunctions.java:63-67 | `to2D` reads only the first `rows * cols` pixels. Two inputs that agree there give the same plane, so extra pixels are ignored. |
| `Reshape.To1D` | math-ocr/src/dezzy/mathocr/RawImageFunctions.java:79-91 | An empty plane throws ArrayIndexOutOfBounds, and so does a row shorter than row 0. Otherwise the result is every row cut to the width of row 0, laid end to end. |
| `Reshape.ConcatAt` | math-ocr/src/dezzy/mathocr/RawImageFunctions.java:80-88 | The `to1D` result has length `rows * cols`, and for `col < cols` its element at `row*cols + col` is `pixels[row][col]`. |
| `Reshape.ConcatCellOf` | math-ocr/src/dezzy/mathocr/RawImageFunctions.java:80-88 | Conversely, flat element `i` of the rows laid end to end is cell `(i / cols, i % cols)`, and that cell exists. |
| `Reshape.ConcatLength` | math-ocr/src/dezzy/mathocr/RawImageFunctions.java:82 | `to1D` produces exactly `rows * cols` elements. |
| `Reshape.ConcatChunks` | math-ocr/src/dezzy/mathocr/RawImageFunctions.java:60-91 | Cutting a flat plane into rows and laying them end to end gives back its first `rows * cols` pixels. |
| `Reshape.FlatRoundTrip` | math-ocr/src/dezzy/mathocr/RawImageFunctions.java:60-91 | `to1D(to2D(p, rows, cols)) == p` when `p` has exactly `rows * cols` pixels and `rows >= 1`. Neither call throws. |
| `Reshape.PlaneRoundTrip` | math-ocr/src/dezzy/mathocr/RawImageFunctions.java:60-91 | `to2D(to1D(q), q.length, cols) == q` for every non-empty rectangular `q` whose rows all have `cols` elements. (`to1D` throws on an empty plane.) |
| `Contrast.Gray` | math-ocr/src/dezzy/mathocr/RawImageFunctions.java:107-110 | The gray value of any 32-bit pixel lies in 0..255. |
| `Contrast.ChannelsOfPack` | math-ocr/src/dezzy/mathocr/RawImageFunctions.java:107-109 | Taking bits 31:24, 23:16, 15:8 and 7:0 of a packed pixel returns the four bytes that were packed. |
| `Contrast.PackOfChannels` | math-ocr/src/dezzy/mathocr/RawImageFunctions.java:107-109 | Every Java `int`, negative ones included, is the packing of its four extracted bytes. |
| `Contrast.GrayIgnoresAlpha` | math-ocr/src/dezzy/mathocr/RawImageFunctions.java:107-110 | Replacing bits 31:24 of a pixel never changes its gray value. |
| `Contrast.GrayReadsLow24Bits` | math-ocr/src/dezzy/mathocr/RawImageFunctions.java:107-110 | Two pixels that agree on bits 23:0 have the same gray value. |
| `Contrast.MaxContrast` | math-ocr/src/dezzy/mathocr/RawImageFunctions.java:102-115 | The output has the input's length and holds only 0 and 255. Entry `i` is 0 exactly when the gray value of pixel `i` is below the barrier. |
| `Contrast.BarrierMonotone` | math-ocr/src/dezzy/mathocr/RawImageFunctions.java:112 | Raising the barrier only turns 255 outputs into 0, never the reverse. |
| `Contrast.ContrastTwice` | math-ocr/src/dezzy/mathocr/RawImageFunctions.java:100-112 | Re-applying `maxContrast` to its own output is the identity for barriers up to 85 and above 255. A barrier of 0 or below makes both passes all 255. Any barrier above 85 makes the second pass all 0, so for barriers 86..255 every white output turns black. |
| `Convolution.ApplyConvolution` | math-ocr/src/dezzy/mathocr/RawImageFunctions.java:155-162 | It throws DimensionMismatch with the source's message exactly when the kernel's row count or column count is even, zero and negative even counts included. Otherwise it returns `null`. |
| `Convolution.KernelExamples` | math-ocr/src/dezzy/mathocr/RawImageFunctions.java:156-158 | 2x2, 0x3 and 3x4 kernels are refused. 1x1, 3x3 and -3x5 kernels pass the check. |
| `Java.RemTwoIsParity` | math-ocr/src/dezzy/mathocr/RawImageFunctions.java:156 | Java's truncating `x % 2 == 0` is the usual evenness test for negative `x` too. |
| `Histogram.Tally` | math-ocr/src/dezzy/mathocr/Metrics.java:14-20 | Counting values one at a time yields exactly 256 bins, and bin `v` holds the number of values equal to `v`. |
| `Histogram.TallySum` | math-ocr/src/dezzy/mathocr/Metrics.java:16-20 | The bins sum to the number of values counted. |
| `Histogram.CountableCells` | math-ocr/src/dezzy/mathocr/Metrics.java:16-18 | The histogram runs without an index error exactly when, within the width of row 0, every row has each cell and every cell holds a value in 0..255. |
| `Histogram.IntensityHistogram` | math-ocr/src/dezzy/mathocr/Metrics.java:13-23 | A row shorter than row 0, or a value outside 0..255 within the width of row 0, throws ArrayIndexOutOfBounds, and nothing else does. Longer rows are read only up to the width of row 0. Otherwise the result has 256 bins and equals the tally of the visited pixels. |
| `Histogram.HistogramCounts` | math-ocr/src/dezzy/mathocr/Metrics.java:13-23 | On a countable plane, bin `v` counts exactly the pixels equal to `v`, and the bins sum to `rows * cols`. |
| `Histogram.EmptyHistogram` | math-ocr/src/dezzy/mathocr/Metrics.java:14-16 | A plane with no rows yields 256 zero bins. |
| `Histogram.UniformHistogram` | math-ocr/src/dezzy/mathocr/Metrics.java:14-20 | `n` pixels all equal to `v` yield `n` in bin `v` and 0 elsewhere. |
| `HistogramImage.Max` | math-ocr/src/dezzy/mathocr/Metrics.java:26-32 | The maximum is an element of the histogram and is at least every bin. |
| `HistogramImage.MaxHeight` | math-ocr/src/dezzy/mathocr/Metrics.java:26-32 | The loop that starts at bin 0 and keeps strictly larger bins computes the maximum of a non-empty histogram. |
| `HistogramImage.BarHeightBounds` | math-ocr/src/dezzy/mathocr/Metrics.java:37 | For counts in `0..maxHeight`, the bar height lies in 0..256. An empty bin gets 0 and a tallest bin gets exactly 256. |
| `HistogramImage.BarHeightMonotone` | math-ocr/src/dezzy/mathocr/Metrics.java:37 | A larger count never gets a shorter bar. |
| `HistogramImage.BarHeightInt32Agrees` | math-ocr/src/dezzy/mathocr/Metrics.java:37 | For counts in 0..2^23 - 1 with a positive maximum, the 32-bit expression the source writes equals the intended bar height. |
| `HistogramImage.BarHeightInt32Overflow` | math-ocr/src/dezzy/mathocr/Metrics.java:37 | A tallest bin of 2^23 pixels gets the 32-bit bar height -256 where 256 is intended, so its column is drawn all white. |
| `HistogramImage.BarHeightInt32OverflowRange` | math-ocr/src/dezzy/mathocr/Metrics.java:37-40 | For any tallest bin of 2^23 up to 2^24 - 1 pixels, the intended bar fills all 256 rows. The 32-bit bar height is 0 or less, so every cell of that column is white. |
| `HistogramImage.BarHeightInt32Negative` | math-ocr/src/dezzy/mathocr/Metrics.java:37 | For negative counts the 32-bit expression also departs from the intended bar height. A count of -2^23 - 1 over a maximum of 1 gives 2^31 - 256 instead of -2^31 - 256. A count of -2^23 over -1 gives `INT_MIN` instead of 2^31. |
| `HistogramImage.HistogramPlane` | math-ocr/src/dezzy/mathocr/Metrics.java:25-42 | An empty histogram throws ArrayIndexOutOfBounds, and a maximum of 0 throws Arithmetic. Otherwise the plane has 256 rows and one column per bin, each cell black or white. Cell `(row, col)` is black exactly when `256 - row <= barHeight(col)`. |
| `HistogramImage.BarPlaneShape` | math-ocr/src/dezzy/mathocr/Metrics.java:34-42 | For non-negative counts, each column is black in exactly its bottom `barHeight` rows, with `barHeight` in 0..256. A tallest bin's column is all black and an empty bin's column is all white. A larger bin's column is black wherever a smaller bin's column is. |

## Behaviour of the Java worth noting

- `to2D` does not check that `pixels.length == rows * cols`. Apart from a negative dimension, it throws only when there are too few pixels, and extra pixels are ignored (`Reshape.ChunksReadsPrefix`).
- `applyConvolution` rejects every kernel with an even row or column count, zero included, and otherwise returns `null` (RawImageFunctions.java:156-161). The 2x2 Roberts-cross kernels are therefore refused (`Convolution.KernelExamples`).
- `maxContrast` is not idempotent on its own output. The output is a bare intensity in the low byte. Read back as packed RGB, white (255) has gray value 85, so re-thresholding is the identity for barriers up to 85 and from 256 on, and for barriers 86..255 every white output turns black (`Contrast.ContrastTwice`).
- `intensityHistogram` neither clamps nor reports out-of-range values: a pixel value outside 0..255 that the loops read is used as an array index and throws ArrayIndexOutOfBounds.

## Findings

| source | as written | input that shows it | evidently intended | confidence | as-written member | corrected member |
|---|---|---|---|---|---|---|
| math-ocr/src/dezzy/mathocr/Metrics.java:37 | `(256 * histogram[col]) / maxHeight` is computed in 32-bit `int`, so `256 * count` wraps once a count reaches 2^23 | a histogram whose tallest bin holds exactly 2^23 = 8388608 pixels, e.g. a photo with exactly 8388608 white pixels, gets bar height -256 for that bin. Every tallest bin of 2^23 up to 2^24 - 1 pixels gets a bar height of 0 or less, so its column is drawn all white | bar height `floor(256 * count / maxHeight)` in 0..256, with the product formed in 64 bits | not executed; high (the arithmetic is exact) | `HistogramImage.BarHeightInt32`, exhibited by `HistogramImage.BarHeightInt32Overflow` and `HistogramImage.BarHeightInt32OverflowRange` | `HistogramImage.BarHeight`, proved in range by `HistogramImage.BarHeightBounds` and used by `HistogramImage.HistogramPlane` |

For counts in 0..2^23 - 1 with a positive maximum the two definitions agree (`HistogramImage.BarHeightInt32Agrees`).

## Left out

- `load`, `getPixels`, `saveGrayscale`, `resize`: thin wrappers over the host image library (ImageIO, BufferedImage, Raster, Graphics2D) and file I/O.
- The tail of `intensityHistogramImage`, `createGrayscaleImage` followed by `resize`: these are host-library calls, and `createGrayscaleImage` is not part of this model. As a result, the `width` and `height` parameters play no part.
- The float-to-int conversion `(int)(threshold * 256)` in `maxContrast`: this is floating point. The barrier is taken as an `int` parameter.
- The convolution itself: `applyConvolution` stops after its kernel check (RawImageFunctions.java:160-161), so there is no convolution arithmetic to model.
- The `Matrix` class: it is not part of this model. A kernel is modelled by its row and column counts, the only fields `applyConvolution` reads (RawImageFunctions.java:156).
- The test driver ContrastTest.java: file I/O with fixed paths and no assertions.
- `null` arrays, `null` rows or a `null` kernel (NullPointerException): sequences and kernel shapes cannot be null.
- `Reshape.To1D`: the allocation size `rows * cols` is an exact integer, not a 32-bit `int`, because a 2D array of more than 2^31 elements is out of reach of the JVM in practice.
- `Histogram.IntensityHistogram`: bin counts are exact integers, not 32-bit `int`s, so the wrap-around after 2^31 - 1 equal pixels is not modelled.
- `HistogramImage.HistogramPlane`: it uses the corrected bar height from the Findings table. The source's 32-bit bar height is modelled separately as `HistogramImage.BarHeightInt32`. The two differ when `256 * count` leaves the `int` range (count at least 2^23, or below -2^23), and when the quotient is `INT_MIN / -1`.

=== FILE: contrast.dfy ===
/** `maxContrast`: binarising a plane of packed RGB pixels against an integer barrier.

  A packed pixel is a Java `int` whose bits 23:16, 15:8 and 7:0 hold red, green and blue.
  Bits 31:24 (alpha, when the host image library fills them) are never read.
 */
module Contrast {

  import opened Java

  type Byte = x: int | 0 <= x < 0x100

  /** The 32 bits of `p` read as an unsigned number, which is what `>>>` shifts. */
  function Unsigned(p: Int32): (u: nat)
    ensures u < TWO_32
    ensures p >= 0 ==> u == p
    ensures p < 0 ==> u == p + TWO_32
  {
    p % TWO_32
  }

  /** Bits 31:24: `p >>> 24`. */
  function Alpha(p: Int32): Byte {
    Unsigned(p) / 0x100_0000
  }

  /** Bits 23:16: `(p >>> 16) & 0xFF`. */
  function Red(p: Int32): Byte {
    (Unsigned(p) / 0x1_0000) % 0x100
  }

  /** Bits 15:8: `(p >>> 8) & 0xFF`. */
  function Green(p: Int32): Byte {
    (Unsigned(p) / 0x100) % 0x100
  }

  /** Bits 7:0: `p & 0xFF`. */
  function Blue(p: Int32): Byte {
    Unsigned(p) % 0x100
  }

  /** The Java `int` whose four bytes, from the top, are `alpha`, `red`, `green` and `blue`. */
  function Pack(alpha: Byte, red: Byte, green: Byte, blue: Byte): Int32 {
    Wrap(alpha * 0x100_0000 + red * 0x1_0000 + green * 0x100 + blue)
  }

  /** The unweighted mean of the three colour bytes, truncated as Java's `/` does on non-negative ints. */
  function Gray(p: Int32): (g: int)
    ensures 0 <= g <= 255
  {
    (Red(p) + Green(p) + Blue(p)) / 3
  }

  /** The channel extractors invert `Pack`. */
  lemma ChannelsOfPack(alpha: Byte, red: Byte, green: Byte, blue: Byte)
    ensures Alpha(Pack(alpha, red, green, blue)) == alpha
    ensures Red(Pack(alpha, red, green, blue)) == red
    ensures Green(Pack(alpha, red, green, blue)) == green
    ensures Blue(Pack(alpha, red, green, blue)) == blue
  {
    var x := alpha * 0x100_0000 + red * 0x1_0000 + green * 0x100 + blue;
    var p := Pack(alpha, red, green, blue);
    assert Unsigned(p) == x;
    assert x / 0x100 == alpha * 0x1_0000 + red * 0x100 + green;
    assert x / 0x1_0000 == alpha * 0x100 + red;
    assert x / 0x100_0000 == alpha;
  }

  /** Reading a Java `int` as unsigned and narrowing it back gives the same `int`. */
  lemma {:induction false} WrapOfUnsigned(p: Int32)
    ensures Wrap(Unsigned(p)) == p
  {
    var u := Unsigned(p);
    if p < 0 {
      assert u + 0x8000_0000 == p + 0x8000_0000 + TWO_32;
      assert (u + 0x8000_0000) % TWO_32 == p + 0x8000_0000;
    }
  }

  /** A number below 2^16 is its high byte times 256 plus its low byte. */
  lemma {:induction false} Recompose16(m: nat)
    requires m < 0x1_0000
    ensures (m / 0x100) % 0x100 == m / 0x100
    ensures (m / 0x100) * 0x100 + m % 0x100 == m
  {
  }

  /** A number below 2^24 is the sum of its three bytes, each at its place. */
  lemma {:induction false} Recompose24(m: nat)
    requires m < 0x100_0000
    ensures (m / 0x1_0000) * 0x1_0000 + ((m / 0x100) % 0x100) * 0x100 + m % 0x100 == m
  {
    var h, l := m / 0x1_0000, m % 0x1_0000;
    assert m == h * 0x1_0000 + l;
    assert m / 0x100 == h * 0x100 + l / 0x100;
    assert (m / 0x100) % 0x100 == l / 0x100;
    assert m % 0x100 == l % 0x100;
    Recompose16(l);
  }

  /** An unsigned 32-bit number is the sum of its four bytes, each at its place. */
  lemma {:induction false} Recompose32(u: nat)
    requires u < TWO_32
    ensures (u / 0x100_0000) * 0x100_0000 + ((u / 0x1_0000) % 0x100) * 0x1_0000
      + ((u / 0x100) % 0x100) * 0x100 + u % 0x100 == u
  {
    var m := u % 0x100_0000;
    assert u == (u / 0x100_0000) * 0x100_0000 + m;
    ChannelsLow24(u);
    Recompose24(m);
    assert ((m / 0x100) % 0x100) == (u / 0x100) % 0x100;
  }

  /** Every Java `int` is the packing of its four bytes: nothing is lost by splitting a pixel into channels. */
  lemma {:induction false} PackOfChannels(p: Int32)
    ensures Pack(Alpha(p), Red(p), Green(p), Blue(p)) == p
  {
    Recompose32(Unsigned(p));
    WrapOfUnsigned(p);
  }

  /** Bits 31:24 never affect the gray value: replacing the top byte of a pixel leaves `Gray` unchanged. */
  lemma GrayIgnoresAlpha(p: Int32, alpha: Byte)
    ensures Gray(Pack(alpha, Red(p), Green(p), Blue(p))) == Gray(p)
  {
    ChannelsOfPack(alpha, Red(p), Green(p), Blue(p));
  }

  /** The same fact for two arbitrary pixels that agree on their low 24 bits. */
  lemma {:induction false} GrayReadsLow24Bits(p: Int32, q: Int32)
    requires Unsigned(p) % 0x100_0000 == Unsigned(q) % 0x100_0000
    ensures Gray(p) == Gray(q)
  {
    PackOfChannels(p);
    PackOfChannels(q);
    var u, v := Unsigned(p), Unsigned(q);
    assert u == Alpha(p) * 0x100_0000 + (u % 0x100_0000);
    assert v == Alpha(q) * 0x100_0000 + (v % 0x100_0000);
    assert Red(p) == Red(q) && Green(p) == Green(q) && Blue(p) == Blue(q) by {
      ChannelsLow24(u);
      ChannelsLow24(v);
    }
  }

  /** The three colour bytes of an unsigned 32-bit number depend only on its low 24 bits. */
  lemma {:induction false} ChannelsLow24(u: nat)
    ensures (u / 0x1_0000) % 0x100 == (u % 0x100_0000) / 0x1_0000
    ensures (u / 0x100) % 0x100 == ((u % 0x100_0000) / 0x100) % 0x100
    ensures u % 0x100 == (u % 0x100_0000) % 0x100
  {
    var k, m := u / 0x100_0000, u % 0x100_0000;
    assert u == k * 0x100_0000 + m;
    assert u / 0x1_0000 == k * 0x100 + m / 0x1_0000;
    assert u / 0x100 == k * 0x1_0000 + m / 0x100;
  }

  /** `out` is what `maxContrast` returns for `pixels` and `barrier`: one entry per pixel,
      0 (black) where the gray value is below the barrier and 255 (white) elsewhere. */
  ghost predicate Contrasted(pixels: seq<Int32>, barrier: int, out: seq<Int32>) {
    && |out| == |pixels|
    && forall i :: 0 <= i < |out| ==>
         (out[i] == 0 || out[i] == 255) && (out[i] == 0 <==> Gray(pixels[i]) < barrier)
  }

  /** `maxContrast(pixels, threshold)` with `barrier` standing for `(int)(threshold * 256)`. */
  method MaxContrast(pixels: seq<Int32>, barrier: Int32) returns (out: seq<Int32>)
    ensures |out| == |pixels|
    ensures forall i :: 0 <= i < |out| ==> out[i] == 0 || out[i] == 255
    ensures forall i :: 0 <= i < |out| ==> (out[i] == 0 <==> Gray(pixels[i]) < barrier)
  {
    out := [];
    var i := 0;
    while i < |pixels|
      invariant 0 <= i <= |pixels|
      invariant Contrasted(pixels[..i], barrier, out)
    {
      var gray := (Red(pixels[i]) + Green(pixels[i]) + Blue(pixels[i])) / 3;
      out := out + [if gray < barrier then 0 else 255];
      i := i + 1;
    }
    assert pixels[..i] == pixels;
  }

  /** Raising the barrier can only turn white pixels black, never the reverse. */
  lemma {:induction false} BarrierMonotone(pixels: seq<Int32>, low: int, high: int, outLow: seq<Int32>, outHigh: seq<Int32>)
    requires low <= high
    requires Contrasted(pixels, low, outLow) && Contrasted(pixels, high, outHigh)
    ensures forall i :: 0 <= i < |pixels| ==> outLow[i] == 0 ==> outHigh[i] == 0
    ensures forall i :: 0 <= i < |pixels| ==> outHigh[i] == 255 ==> outLow[i] == 255
  {
  }

  /** Feeding the output of `maxContrast` back in is not always the identity: a white output
      pixel is the `int` 255, whose colour bytes are red 0, green 0, blue 255, so its gray value
      is 85. Re-thresholding keeps the image for barriers up to 85 and from 256 on (a barrier of
      0 or less makes both passes all white, one above 255 makes both all black); for barriers
      86..255 every white output turns black. */
  lemma {:induction false} ContrastTwice(pixels: seq<Int32>, barrier: int, once: seq<Int32>, twice: seq<Int32>)
    requires Contrasted(pixels, barrier, once) && Contrasted(once, barrier, twice)
    ensures 0 < barrier <= 85 ==> twice == once
    ensures 85 < barrier ==> forall i :: 0 <= i < |twice| ==> twice[i] == 0
    ensures barrier <= 0 ==> forall i :: 0 <= i < |twice| ==> twice[i] == 255
    ensures barrier <= 0 || 255 < barrier ==> twice == once
  {
    assert Gray(0) == 0;
    assert Gray(255) == 85 by {
      assert Red(255) == 0 && Green(255) == 0 && Blue(255) == 255;
    }
  }
}

=== FILE: convolution.dfy ===
/** The kernel check at the head of `applyConvolution`.

  The convolution itself is unfinished in RawImageFunctions.java: past the check the method
  returns `null`. Only the kernel's dimensions are read, so a kernel is modelled by its shape;
  the `Matrix` class it comes from is not part of this model.
 */
module Convolution {

  import opened Java

  /** The row and column counts of a kernel matrix. */
  datatype KernelShape = KernelShape(rows: Int32, cols: Int32)

  const ODD_KERNEL_MESSAGE: string := "Kernel must have odd number of rows and columns!"

  /** `applyConvolution(pixels, kernel)`: throws `DimensionMismatchException` unless both kernel
      dimensions are odd (zero counts as even), and otherwise returns `null`. */
  function ApplyConvolution(pixels: seq<seq<int>>, kernel: KernelShape): (r: Result<Option<seq<seq<int>>>>)
    ensures r.Throws? <==> kernel.rows % 2 == 0 || kernel.cols % 2 == 0
    ensures r.Throws? ==> r.exception == DimensionMismatch(ODD_KERNEL_MESSAGE)
    ensures r.Ok? ==> r.value == Null
  {
    RemTwoIsParity(kernel.rows);
    RemTwoIsParity(kernel.cols);
    if Rem(kernel.rows, 2) == 0 || Rem(kernel.cols, 2) == 0 then
      Throws(DimensionMismatch(ODD_KERNEL_MESSAGE))
    else
      Ok(Null)
  }

  /** The 2 x 2 Roberts-cross kernels and empty kernels are refused; 1 x 1 and 3 x 3 kernels pass. */
  lemma KernelExamples(pixels: seq<seq<int>>)
    ensures ApplyConvolution(pixels, KernelShape(2, 2)).Throws?
    ensures ApplyConvolution(pixels, KernelShape(0, 3)).Throws?
    ensures ApplyConvolution(pixels, KernelShape(3, 4)).Throws?
    ensures ApplyConvolution(pixels, KernelShape(1, 1)) == Ok(Null)
    ensures ApplyConvolution(pixels, KernelShape(3, 3)) == Ok(Null)
    ensures ApplyConvolution(pixels, KernelShape(-3, 5)) == Ok(Null)
  {
  }
}

=== FILE: histogram.dfy ===
/** `intensityHistogram`: counting the pixels of a grayscale plane into 256 bins.

  The Java loops walk the plane row by row, using the width of row 0 for every row, and add
  one to the bin indexed by each pixel value. A row shorter than row 0 or a value outside
  0..255 makes an array index go out of bounds.
 */
module Histogram {

  import opened Java
  import opened Reshape

  const BINS: nat := 256

  /** How many elements of `s` equal `v`. */
  function Occurrences(s: seq<int>, v: int): nat {
    if |s| == 0 then 0
    else Occurrences(s[..|s| - 1], v) + (if s[|s| - 1] == v then 1 else 0)
  }

  /** The sum of a sequence of counts. */
  function Sum(s: seq<int>): int {
    if |s| == 0 then 0 else Sum(s[..|s| - 1]) + s[|s| - 1]
  }

  /** Every value of `s` is a valid bin index. */
  predicate InRange(s: seq<int>) {
    forall i :: 0 <= i < |s| ==> 0 <= s[i] < BINS
  }

  /** The bins after counting `s` one value at a time, as the Java loop does. */
  function Tally(s: seq<int>): (h: seq<int>)
    requires InRange(s)
    ensures |h| == BINS
    ensures forall v :: 0 <= v < BINS ==> h[v] == Occurrences(s, v)
  {
    if |s| == 0 then seq(BINS, _ => 0)
    else
      var h := Tally(s[..|s| - 1]);
      h[s[|s| - 1] := h[s[|s| - 1]] + 1]
  }

  /** Adding `d` to one entry adds `d` to the sum. */
  lemma {:induction false} SumUpdate(s: seq<int>, i: nat, d: int)
    requires i < |s|
    ensures Sum(s[i := s[i] + d]) == Sum(s) + d
    decreases |s|
  {
    var n := |s| - 1;
    var t := s[i := s[i] + d];
    assert t[..n] == if i < n then s[..n][i := s[i] + d] else s[..n];
    if i < n {
      SumUpdate(s[..n], i, d);
    }
  }

  /** A sequence of zeros sums to zero. */
  lemma {:induction false} SumZeros(n: nat)
    ensures Sum(seq(n, _ => 0)) == 0
  {
    if n > 0 {
      assert seq(n, _ => 0)[..n - 1] == seq(n - 1, _ => 0);
      SumZeros(n - 1);
    }
  }

  /** Every value counted lands in exactly one bin: the bins sum to the number of values. */
  lemma {:induction false} TallySum(s: seq<int>)
    requires InRange(s)
    ensures Sum(Tally(s)) == |s|
    decreases |s|
  {
    if |s| == 0 {
      SumZeros(BINS);
    } else {
      var h := Tally(s[..|s| - 1]);
      TallySum(s[..|s| - 1]);
      SumUpdate(h, s[|s| - 1], 1);
    }
  }

  /** Appending one value bumps exactly its bin. */
  lemma {:induction false} TallySnoc(s: seq<int>, x: int)
    requires InRange(s) && 0 <= x < BINS
    ensures InRange(s + [x])
    ensures Tally(s + [x]) == Tally(s)[x := Tally(s)[x] + 1]
  {
    assert (s + [x])[..|s|] == s;
  }

  /** Counting one more pixel of a row: the loop's step, stated on the pixels seen so far. */
  lemma {:induction false} VisitStep(prefix: seq<int>, line: seq<int>, col: nat)
    requires col < |line| && 0 <= line[col] < BINS
    requires InRange(prefix + line[..col])
    ensures InRange(prefix + line[..col + 1])
    ensures Tally(prefix + line[..col + 1]) == Tally(prefix + line[..col])[line[col] := Tally(prefix + line[..col])[line[col]] + 1]
  {
    var seen := prefix + line[..col];
    TallySnoc(seen, line[col]);
    assert seen + [line[col]] == prefix + line[..col + 1];
  }

  /** The plane can be histogrammed without an index going out of bounds: every row is at
      least as wide as row 0 and every pixel the loops visit is a valid bin index. */
  predicate Countable(pixels: seq<seq<int>>) {
    |pixels| == 0 || (RowsAtLeast(pixels, |pixels[0]|) && InRange(Concat(pixels, |pixels[0]|)))
  }

  /** The pixels the Java loops visit, in visiting order. */
  function Visited(pixels: seq<seq<int>>): seq<int>
    requires |pixels| == 0 || RowsAtLeast(pixels, |pixels[0]|)
  {
    if |pixels| == 0 then [] else Concat(pixels, |pixels[0]|)
  }

  /** Cell `(row, col)` exists and holds a valid bin index. */
  predicate CellCountable(pixels: seq<seq<int>>, row: nat, col: nat)
    requires row < |pixels|
  {
    col < |pixels[row]| && 0 <= pixels[row][col] < BINS
  }

  /** Cells in range make the plane countable. */
  lemma {:induction false} CellsMakeCountable(pixels: seq<seq<int>>)
    requires |pixels| > 0
    requires forall row, col :: 0 <= row < |pixels| && 0 <= col < |pixels[0]| ==> CellCountable(pixels, row, col)
    ensures Countable(pixels)
  {
    var cols := |pixels[0]|;
    forall row | 0 <= row < |pixels| ensures |pixels[row]| >= cols {
      if cols > 0 {
        assert CellCountable(pixels, row, cols - 1);
      }
    }
    assert RowsAtLeast(pixels, cols);
    var flat := Concat(pixels, cols);
    forall i | 0 <= i < |flat| ensures 0 <= flat[i] < BINS {
      ConcatCellOf(pixels, cols, i);
      assert CellCountable(pixels, i / cols, i % cols);
    }
  }

  /** A countable plane has every cell in range. */
  lemma {:induction false} CountableHasCells(pixels: seq<seq<int>>)
    requires |pixels| > 0 && Countable(pixels)
    ensures forall row, col :: 0 <= row < |pixels| && 0 <= col < |pixels[0]| ==> CellCountable(pixels, row, col)
  {
    var cols := |pixels[0]|;
    forall row, col | 0 <= row < |pixels| && 0 <= col < cols ensures CellCountable(pixels, row, col) {
      ConcatAt(pixels, cols, row, col);
    }
  }

  /** `Countable` cell by cell: within the width of row 0, every row has a pixel at every
      column and that pixel lies in 0..255. */
  lemma {:induction false} CountableCells(pixels: seq<seq<int>>)
    requires |pixels| > 0
    ensures Countable(pixels) <==>
      forall row, col :: 0 <= row < |pixels| && 0 <= col < |pixels[0]| ==> CellCountable(pixels, row, col)
  {
    if forall row, col :: 0 <= row < |pixels| && 0 <= col < |pixels[0]| ==> CellCountable(pixels, row, col) {
      CellsMakeCountable(pixels);
    }
    if Countable(pixels) {
      CountableHasCells(pixels);
    }
  }

  /** `intensityHistogram(pixels)`. */
  method IntensityHistogram(pixels: seq<seq<int>>) returns (r: Result<seq<int>>)
    ensures !Countable(pixels) <==> r == Throws(ArrayIndexOutOfBounds)
    ensures Countable(pixels) ==> r.Ok? && |r.value| == BINS
    ensures Countable(pixels) ==> r.value == Tally(Visited(pixels))
  {
    var intensities := seq(BINS, _ => 0);
    var rows := |pixels|;
    if rows == 0 {
      return Ok(intensities);
    }
    var cols := |pixels[0]|;
    var row := 0;
    while row < rows
      invariant 0 <= row <= rows
      invariant RowsAtLeast(pixels[..row], cols)
      invariant InRange(Concat(pixels[..row], cols))
      invariant intensities == Tally(Concat(pixels[..row], cols))
    {
      var col := 0;
      assert Concat(pixels[..row], cols) + pixels[row][..col] == Concat(pixels[..row], cols);
      while col < cols
        invariant 0 <= col <= cols
        invariant col <= |pixels[row]|
        invariant InRange(Concat(pixels[..row], cols) + pixels[row][..col])
        invariant intensities == Tally(Concat(pixels[..row], cols) + pixels[row][..col])
      {
        if col >= |pixels[row]| || !(0 <= pixels[row][col] < BINS) {
          assert !CellCountable(pixels, row, col);
          CountableCells(pixels);
          return Throws(ArrayIndexOutOfBounds);
        }
        var v := pixels[row][col];
        VisitStep(Concat(pixels[..row], cols), pixels[row], col);
        intensities := intensities[v := intensities[v] + 1];
        col := col + 1;
      }
      ConcatNextRow(pixels, row, cols);
      assert pixels[row][..col] == pixels[row][..cols];
      row := row + 1;
    }
    assert pixels[..rows] == pixels;
    return Ok(intensities);
  }

  /** Bin `v` of the histogram counts exactly the pixels equal to `v`, and the bins sum to the
      number of pixels visited, `rows * cols` with `cols` the width of row 0. */
  lemma {:induction false} HistogramCounts(pixels: seq<seq<int>>)
    requires Countable(pixels)
    ensures var h := Tally(Visited(pixels));
      && |h| == BINS
      && (forall v :: 0 <= v < BINS ==> h[v] == Occurrences(Visited(pixels), v))
      && Sum(h) == |pixels| * (if |pixels| == 0 then 0 else |pixels[0]|)
  {
    TallySum(Visited(pixels));
    if |pixels| > 0 {
      ConcatLength(pixels, |pixels[0]|);
    }
  }

  /** An empty plane yields 256 empty bins. */
  lemma EmptyHistogram()
    ensures Tally(Visited([])) == seq(BINS, _ => 0)
  {
  }

  /** A plane of `n` pixels all equal to `v` yields `n` in bin `v` and zero elsewhere. */
  lemma {:induction false} UniformHistogram(s: seq<int>, v: int)
    requires 0 <= v < BINS
    requires forall i :: 0 <= i < |s| ==> s[i] == v
    ensures InRange(s)
    ensures forall w :: 0 <= w < BINS ==> Tally(s)[w] == if w == v then |s| else 0
    decreases |s|
  {
    if |s| > 0 {
      UniformHistogram(s[..|s| - 1], v);
    }
  }
}

=== FILE: histogram_image.dfy ===
/** The integer core of `intensityHistogramImage`: a bar chart of a histogram as a grayscale plane.

  The tallest bin sets the scale. Column `col` of a 256-row plane gets a black bar of
  height `(256 * histogram[col]) / maxHeight` rising from the bottom row, on a white
  background. The plane is then handed to the host image library to be turned into an
  image and resized; that tail is not part of this model.
 */
module HistogramImage {

  import opened Java
  import opened Reshape

  const PLANE_ROWS: nat := 256
  const BLACK: int := 0
  const WHITE: int := 255

  /** The largest element of a non-empty sequence. */
  function Max(s: seq<int>): (m: int)
    requires |s| > 0
    ensures m in s
    ensures forall i :: 0 <= i < |s| ==> s[i] <= m
  {
    if |s| == 1 then s[0]
    else
      var m := Max(s[..|s| - 1]);
      assert forall i :: 0 <= i < |s| - 1 ==> s[i] == s[..|s| - 1][i];
      if s[|s| - 1] > m then s[|s| - 1] else m
  }

  /** The `maxHeight` loop: starts from bin 0 and keeps any strictly larger bin. */
  method MaxHeight(histogram: seq<Int32>) returns (maxHeight: Int32)
    requires |histogram| > 0
    ensures maxHeight == Max(histogram)
  {
    maxHeight := histogram[0];
    var i := 1;
    while i < |histogram|
      invariant 1 <= i <= |histogram|
      invariant maxHeight == Max(histogram[..i])
    {
      assert histogram[..i + 1][..i] == histogram[..i];
      if histogram[i] > maxHeight {
        maxHeight := histogram[i];
      }
      i := i + 1;
    }
    assert histogram[..i] == histogram;
  }

  /** The height of the bar for a bin of `count` when the tallest bin is `maxHeight`, with the
      product `256 * count` formed exactly. This is the evidently intended bar height; the
      source forms the product in 32 bits, see `BarHeightInt32`. */
  function BarHeight(count: int, maxHeight: int): int
    requires maxHeight != 0
  {
    Div(256 * count, maxHeight)
  }

  /** The bar height as `Metrics.intensityHistogramImage` writes it, `(256 * histogram[col]) / maxHeight`
      on Java `int`s: the product wraps around modulo 2^32 before the division, and so does the
      quotient `INT_MIN / -1`. */
  function BarHeightInt32(count: Int32, maxHeight: Int32): Int32
    requires maxHeight != 0
  {
    Wrap(Div(Wrap(256 * count), maxHeight))
  }

  /** A bar never rises above the plane: for counts between 0 and the maximum its height lies
      in 0..256, an empty bin has no bar and a tallest bin fills the whole column. */
  lemma {:induction false} BarHeightBounds(count: int, maxHeight: int)
    requires 0 <= count <= maxHeight && maxHeight > 0
    ensures 0 <= BarHeight(count, maxHeight) <= PLANE_ROWS
    ensures count == 0 ==> BarHeight(count, maxHeight) == 0
    ensures count == maxHeight ==> BarHeight(count, maxHeight) == PLANE_ROWS
  {
    DivNonNegative(256 * count, maxHeight);
    DivMonotone(256 * count, 256 * maxHeight, maxHeight);
    MulDiv(256, maxHeight);
  }

  /** A larger bin never gets a shorter bar. */
  lemma {:induction false} BarHeightMonotone(small: int, large: int, maxHeight: int)
    requires 0 <= small <= large && maxHeight > 0
    ensures BarHeight(small, maxHeight) <= BarHeight(large, maxHeight)
  {
    DivNonNegative(256 * small, maxHeight);
    DivNonNegative(256 * large, maxHeight);
    DivMonotone(256 * small, 256 * large, maxHeight);
  }

  /** For counts in 0..2^23 - 1 and a positive maximum the 32-bit product cannot wrap, and the
      source's bar height is the intended one. */
  lemma {:induction false} BarHeightInt32Agrees(count: Int32, maxHeight: Int32)
    requires 0 <= count < 0x80_0000 && maxHeight > 0
    ensures BarHeightInt32(count, maxHeight) == BarHeight(count, maxHeight)
  {
    DivNonNegative(256 * count, maxHeight);
    DivAtMost(256 * count, maxHeight);
  }

  /** From 2^23 pixels of one intensity on, `256 * count` wraps: a histogram whose tallest bin
      holds 2^23 pixels gets bar height -256 for that bin instead of 256, so its column is drawn
      entirely white where it should be entirely black. */
  lemma BarHeightInt32Overflow()
    ensures BarHeight(0x80_0000, 0x80_0000) == PLANE_ROWS
    ensures BarHeightInt32(0x80_0000, 0x80_0000) == -256
    ensures forall row :: 0 <= row < PLANE_ROWS ==> Cell(BarHeightInt32(0x80_0000, 0x80_0000), row) == WHITE
  {
    assert Wrap(256 * 0x80_0000) == INT_MIN;
  }

  /** The same for every tallest bin of 2^23 up to 2^24 - 1 pixels: the intended bar fills the
      column, while the 32-bit bar height is at most 0, so the column is drawn all white. */
  lemma {:induction false} BarHeightInt32OverflowRange(m: Int32)
    requires 0x80_0000 <= m < 0x100_0000
    ensures BarHeight(m, m) == PLANE_ROWS
    ensures BarHeightInt32(m, m) <= 0
    ensures forall row :: 0 <= row < PLANE_ROWS ==> Cell(BarHeightInt32(m, m), row) == WHITE
  {
    BarHeightBounds(m, m);
    var w := 256 * m - TWO_32;
    assert INT_MIN <= w < 0;
    assert (256 * m + 0x8000_0000) % TWO_32 == 256 * m + 0x8000_0000 - TWO_32;
    assert Wrap(256 * m) == w;
    DivAtMost(-w, m);
    assert INT_MIN <= Div(w, m) <= 0;
  }

  /** Negative counts wrap too: below -2^23 the 32-bit product turns positive, and a quotient
      of `INT_MIN / -1` wraps back to `INT_MIN`. */
  lemma BarHeightInt32Negative()
    ensures BarHeight(-0x80_0001, 1) == -0x8000_0100
    ensures BarHeightInt32(-0x80_0001, 1) == 0x7FFF_FF00
    ensures BarHeight(-0x80_0000, -1) == 0x8000_0000
    ensures BarHeightInt32(-0x80_0000, -1) == INT_MIN
  {
    assert Wrap(256 * -0x80_0001) == 0x7FFF_FF00;
    assert Wrap(256 * -0x80_0000) == INT_MIN;
  }

  /** The colour of cell `row` in a column whose bar has height `barHeight`. */
  function Cell(barHeight: int, row: int): int {
    if PLANE_ROWS - row > barHeight then WHITE else BLACK
  }

  /** `plane` is the 256-row bar chart of `histogram`: cell `(row, col)` is black exactly when
      it lies among the bottom `BarHeight(histogram[col], Max(histogram))` rows. */
  ghost predicate BarPlane(histogram: seq<int>, plane: seq<seq<int>>)
    requires |histogram| > 0 && Max(histogram) != 0
  {
    && Rectangular(plane, PLANE_ROWS, |histogram|)
    && forall row, col :: 0 <= row < PLANE_ROWS && 0 <= col < |histogram| ==>
         (plane[row][col] == BLACK || plane[row][col] == WHITE) &&
         (plane[row][col] == BLACK <==> PLANE_ROWS - row <= BarHeight(histogram[col], Max(histogram)))
  }

  /** The part of `intensityHistogramImage(histogram, width, height)` before the plane is turned
      into an image: the maximum bin, then one bar per column of a `256 x |histogram|` plane.
      An empty histogram fails on `histogram[0]`; a histogram whose maximum is 0 fails on the
      division. */
  method HistogramPlane(histogram: seq<Int32>) returns (r: Result<seq<seq<int>>>)
    ensures |histogram| == 0 ==> r == Throws(ArrayIndexOutOfBounds)
    ensures |histogram| > 0 && Max(histogram) == 0 ==> r == Throws(Arithmetic)
    ensures |histogram| > 0 && Max(histogram) != 0 ==> r.Ok? && BarPlane(histogram, r.value)
  {
    if |histogram| == 0 {
      return Throws(ArrayIndexOutOfBounds);
    }
    var maxHeight := MaxHeight(histogram);
    var cols := |histogram|;
    if maxHeight == 0 {
      // the column loop runs at least once, and its first division fails
      return Throws(Arithmetic);
    }
    var image := new int[PLANE_ROWS, cols];
    var col := 0;
    while col < cols
      invariant 0 <= col <= cols
      invariant forall row, c :: 0 <= row < PLANE_ROWS && 0 <= c < col ==>
        image[row, c] == Cell(BarHeight(histogram[c], maxHeight), row)
    {
      var barHeight := BarHeight(histogram[col], maxHeight);
      var row := 0;
      while row < PLANE_ROWS
        invariant 0 <= row <= PLANE_ROWS
        invariant forall rw, c :: 0 <= rw < PLANE_ROWS && 0 <= c < col ==>
          image[rw, c] == Cell(BarHeight(histogram[c], maxHeight), rw)
        invariant forall rw :: 0 <= rw < row ==> image[rw, col] == Cell(barHeight, rw)
      {
        image[row, col] := if PLANE_ROWS - row > barHeight then WHITE else BLACK;
        row := row + 1;
      }
      col := col + 1;
    }
    var plane := seq(PLANE_ROWS, row requires 0 <= row < PLANE_ROWS reads image =>
      seq(cols, c requires 0 <= c < cols reads image => image[row, c]));
    return Ok(plane);
  }

  /** What the bar chart shows, for a histogram of non-negative counts with a positive maximum:
      each column is black in exactly its bottom `b` rows with `b` its bar height in 0..256, a
      tallest bin's column is all black, an empty bin's column is all white, and a larger bin's
      column is black wherever a smaller bin's is. */
  lemma {:induction false} BarPlaneShape(histogram: seq<int>, plane: seq<seq<int>>)
    requires |histogram| > 0 && Max(histogram) > 0
    requires forall i :: 0 <= i < |histogram| ==> histogram[i] >= 0
    requires BarPlane(histogram, plane)
    ensures forall col :: 0 <= col < |histogram| ==>
      0 <= BarHeight(histogram[col], Max(histogram)) <= PLANE_ROWS
    ensures forall row, col :: 0 <= row < PLANE_ROWS && 0 <= col < |histogram| ==>
      (plane[row][col] == BLACK <==> row >= PLANE_ROWS - BarHeight(histogram[col], Max(histogram)))
    ensures forall row, col ::
      (0 <= row < PLANE_ROWS && 0 <= col < |histogram| && histogram[col] == Max(histogram)) ==>
      plane[row][col] == BLACK
    ensures forall row, col ::
      (0 <= row < PLANE_ROWS && 0 <= col < |histogram| && histogram[col] == 0) ==>
      plane[row][col] == WHITE
    ensures forall row, c1, c2 ::
      (0 <= row < PLANE_ROWS && 0 <= c1 < |histogram| && 0 <= c2 < |histogram| &&
       histogram[c1] <= histogram[c2] && plane[row][c1] == BLACK) ==>
      plane[row][c2] == BLACK
  {
    var m := Max(histogram);
    forall col | 0 <= col < |histogram|
      ensures 0 <= BarHeight(histogram[col], m) <= PLANE_ROWS
      ensures histogram[col] == m ==> BarHeight(histogram[col], m) == PLANE_ROWS
      ensures histogram[col] == 0 ==> BarHeight(histogram[col], m) == 0
    {
      BarHeightBounds(histogram[col], m);
    }
    forall c1, c2 | 0 <= c1 < |histogram| && 0 <= c2 < |histogram| && histogram[c1] <= histogram[c2]
      ensures BarHeight(histogram[c1], m) <= BarHeight(histogram[c2], m)
    {
      BarHeightMonotone(histogram[c1], histogram[c2], m);
    }
  }
}

=== FILE: java.dfy ===
/** Java integer semantics and exceptional outcomes used by the image model.

  Java's `int` is a 32-bit two's-complement integer whose `/` and `%` truncate toward
  zero, whereas Dafny's integers are unbounded and its `/` and `%` are Euclidean.
  Everything that depends on the difference is written out here once.
 */
module Java {

  const INT_MIN: int := -0x8000_0000
  const INT_MAX: int := 0x7FFF_FFFF
  const TWO_32: int := 0x1_0000_0000

  /** The values of a Java `int`. */
  type Int32 = x: int | -0x8000_0000 <= x < 0x8000_0000

  /** The exceptions the modelled code can raise. */
  datatype Exception =
    | NegativeArraySize
    | ArrayIndexOutOfBounds
    | Arithmetic
    | DimensionMismatch(message: string)

  /** The outcome of a Java call: a returned value, or a thrown exception. */
  datatype Result<+T> = Ok(value: T) | Throws(exception: Exception)

  /** A Java reference that may be `null`. */
  datatype Option<+T> = Null | Some(value: T)

  /** Narrowing of an exact result to a Java `int`: the one `int` congruent to `x` modulo 2^32. */
  function Wrap(x: int): (r: Int32)
    ensures (r - x) % TWO_32 == 0
    ensures INT_MIN <= x <= INT_MAX ==> r == x
  {
    (x + 0x8000_0000) % TWO_32 - 0x8000_0000
  }

  /** Java's integer `/`: the quotient truncated toward zero. */
  function Div(a: int, b: int): int
    requires b != 0
  {
    if a >= 0 && b > 0 then a / b
    else if a >= 0 then -(a / -b)
    else if b > 0 then -((-a) / b)
    else (-a) / (-b)
  }

  /** Java's integer `%`: the remainder that goes with the truncating quotient. */
  function Rem(a: int, b: int): int
    requires b != 0
  {
    a - Div(a, b) * b
  }

  /** On non-negative operands Java's `/` agrees with Dafny's. */
  lemma {:induction false} DivNonNegative(a: nat, b: int)
    requires b > 0
    ensures Div(a, b) == a / b
  {
  }

  /** Multiplying by a non-negative factor keeps the order. */
  lemma {:induction false} MulMonotone(x: int, y: int, d: nat)
    requires x <= y
    ensures x * d <= y * d
  {
    var k := y - x;
    assert y * d == x * d + k * d;
  }

  /** Dividing by a positive number keeps the order of non-negative numbers. */
  lemma {:induction false} DivMonotone(a: nat, b: nat, d: int)
    requires a <= b && d > 0
    ensures a / d <= b / d
  {
    var qa, qb := a / d, b / d;
    assert a == qa * d + a % d && b == qb * d + b % d;
    if qa > qb {
      MulMonotone(qb + 1, qa, d);
    }
  }

  /** Multiplying by `d` and then dividing by `d` is the identity. */
  lemma {:induction false} MulDiv(k: nat, d: int)
    requires d > 0
    ensures (k * d) / d == k
  {
    var q, r := (k * d) / d, (k * d) % d;
    assert k * d == q * d + r && 0 <= r < d;
    assert (k - q) * d == r;
    if k - q >= 1 {
      MulMonotone(1, k - q, d);
    } else if k - q <= -1 {
      MulMonotone(k - q, -1, d);
    }
  }

  /** Dividing a non-negative number by a positive one never makes it larger. */
  lemma {:induction false} DivAtMost(a: nat, d: int)
    requires d > 0
    ensures a / d <= a
  {
    var q := a / d;
    assert a == q * d + a % d;
    if q > a {
      MulMonotone(1, d, q);
    }
  }

  /** Java's `x % 2 == 0` tests evenness for negative `x` too, although its remainder is then -1 or 0. */
  lemma {:induction false} RemTwoIsParity(x: int)
    ensures Rem(x, 2) == 0 <==> x % 2 == 0
  {
    var q := Div(x, 2);
    if x < 0 {
      assert q == -((-x) / 2);
    } else {
      assert q == x / 2;
    }
  }
}

=== FILE: reshape.dfy ===
/** The two layouts of a pixel plane and the conversions `to2D` and `to1D` between them.

  A flat plane lists the pixels of a `rows x cols` image row by row, so that the pixel in
  row `row`, column `col` sits at index `col + row * cols`. A 2D plane is a sequence of rows.
  Java arrays of arrays may be jagged, so a 2D plane here is any `seq<seq<int>>`.
 */
module Reshape {

  import opened Java

  /** Every row of `q` has at least `cols` elements. */
  predicate RowsAtLeast(q: seq<seq<int>>, cols: nat) {
    forall row :: 0 <= row < |q| ==> |q[row]| >= cols
  }

  /** `q` has exactly `rows` rows, each of exactly `cols` elements. */
  predicate Rectangular(q: seq<seq<int>>, rows: nat, cols: nat) {
    |q| == rows && forall row :: 0 <= row < |q| ==> |q[row]| == cols
  }

  /** `(row + 1) * cols` as a sum, so that the solver can step a row at a time. */
  lemma {:induction false} NextRow(row: int, cols: int)
    ensures (row + 1) * cols == row * cols + cols
  {
  }

  /** A row-major index lies below `rows * cols` when its row and column are in range. */
  lemma {:induction false} IndexBelow(row: nat, col: nat, rows: nat, cols: nat)
    requires row < rows && col < cols
    ensures col + row * cols < rows * cols
  {
    NextRow(row, cols);
    assert (row + 1) * cols <= rows * cols by {
      var k := rows - (row + 1);
      assert rows * cols == (row + 1) * cols + k * cols;
    }
  }

  /** The first `rows` consecutive runs of `cols` pixels of `pixels`, in order: what `to2D` fills in. */
  function Chunks(pixels: seq<int>, rows: nat, cols: nat): seq<seq<int>>
    requires rows * cols <= |pixels|
    decreases rows
  {
    if rows == 0 then []
    else
      NextRow(rows - 1, cols);
      Chunks(pixels, rows - 1, cols) + [pixels[(rows - 1) * cols .. rows * cols]]
  }

  /** The rows of `q`, each cut to its first `cols` elements, laid end to end: what `to1D` fills in. */
  function Concat(q: seq<seq<int>>, cols: nat): seq<int>
    requires RowsAtLeast(q, cols)
  {
    if |q| == 0 then [] else Concat(q[..|q| - 1], cols) + q[|q| - 1][..cols]
  }

  /** Each of the rows `to2D` fills in has exactly `cols` elements. */
  lemma {:induction false} ChunksShape(pixels: seq<int>, rows: nat, cols: nat)
    requires rows * cols <= |pixels|
    ensures Rectangular(Chunks(pixels, rows, cols), rows, cols)
    decreases rows
  {
    if rows > 0 {
      NextRow(rows - 1, cols);
      ChunksShape(pixels, rows - 1, cols);
    }
  }

  /** One cell of the result of `to2D`. */
  lemma {:induction false} ChunksAt(pixels: seq<int>, rows: nat, cols: nat, row: nat, col: nat)
    requires rows * cols <= |pixels| && row < rows && col < cols
    ensures col + row * cols < |pixels|
    ensures |Chunks(pixels, rows, cols)| == rows && |Chunks(pixels, rows, cols)[row]| == cols
    ensures Chunks(pixels, rows, cols)[row][col] == pixels[col + row * cols]
    decreases rows
  {
    IndexBelow(row, col, rows, cols);
    ChunksShape(pixels, rows, cols);
    NextRow(rows - 1, cols);
    if row < rows - 1 {
      ChunksAt(pixels, rows - 1, cols, row, col);
    }
  }

  /** `to1D` lays down `cols` elements per row. */
  lemma {:induction false} ConcatLength(q: seq<seq<int>>, cols: nat)
    requires RowsAtLeast(q, cols)
    ensures |Concat(q, cols)| == |q| * cols
    decreases |q|
  {
    if |q| > 0 {
      ConcatLength(q[..|q| - 1], cols);
      NextRow(|q| - 1, cols);
    }
  }

  /** One cell of the result of `to1D`. */
  lemma {:induction false} ConcatAt(q: seq<seq<int>>, cols: nat, row: nat, col: nat)
    requires RowsAtLeast(q, cols) && row < |q| && col < cols
    ensures row * cols + col < |Concat(q, cols)| == |q| * cols
    ensures Concat(q, cols)[row * cols + col] == q[row][col]
    decreases |q|
  {
    var n := |q| - 1;
    IndexBelow(row, col, |q|, cols);
    ConcatLength(q, cols);
    ConcatLength(q[..n], cols);
    var front := Concat(q[..n], cols);
    assert Concat(q, cols) == front + q[n][..cols];
    if row < n {
      ConcatAt(q[..n], cols, row, col);
      assert q[..n][row] == q[row];
    } else {
      NextRow(n, cols);
    }
  }

  /** Element `i` of the rows laid end to end is cell `(i / cols, i % cols)`. */
  lemma {:induction false} ConcatCellOf(q: seq<seq<int>>, cols: nat, i: nat)
    requires RowsAtLeast(q, cols)
    requires i < |Concat(q, cols)|
    ensures cols > 0 && i / cols < |q| && i % cols < cols
    ensures Concat(q, cols)[i] == q[i / cols][i % cols]
  {
    ConcatLength(q, cols);
    var row, col := i / cols, i % cols;
    assert i == row * cols + col;
    if row >= |q| {
      MulMonotone(|q|, row, cols);
    }
    ConcatAt(q, cols, row, col);
  }

  /** `to2D` only reads the first `rows * cols` pixels: extra pixels are ignored. */
  lemma {:induction false} ChunksReadsPrefix(pixels: seq<int>, other: seq<int>, rows: nat, cols: nat)
    requires rows * cols <= |pixels| && rows * cols <= |other|
    requires pixels[..rows * cols] == other[..rows * cols]
    ensures Chunks(pixels, rows, cols) == Chunks(other, rows, cols)
    decreases rows
  {
    if rows > 0 {
      NextRow(rows - 1, cols);
      assert pixels[..(rows - 1) * cols] == pixels[..rows * cols][..(rows - 1) * cols];
      assert other[..(rows - 1) * cols] == other[..rows * cols][..(rows - 1) * cols];
      ChunksReadsPrefix(pixels, other, rows - 1, cols);
      assert pixels[(rows - 1) * cols .. rows * cols] == pixels[..rows * cols][(rows - 1) * cols ..];
      assert other[(rows - 1) * cols .. rows * cols] == other[..rows * cols][(rows - 1) * cols ..];
    }
  }

  /** Laying one more row end to end appends its first `cols` elements. */
  lemma {:induction false} ConcatAppend(front: seq<seq<int>>, last: seq<int>, cols: nat)
    requires RowsAtLeast(front, cols) && |last| >= cols
    ensures RowsAtLeast(front + [last], cols)
    ensures Concat(front + [last], cols) == Concat(front, cols) + last[..cols]
  {
    assert (front + [last])[..|front|] == front;
  }

  /** Cutting one more row of `cols` pixels appends that row. */
  lemma {:induction false} ChunksAppend(front: seq<int>, last: seq<int>, rows: nat, cols: nat)
    requires |front| == rows * cols && |last| == cols
    ensures (rows + 1) * cols <= |front + last|
    ensures Chunks(front + last, rows + 1, cols) == Chunks(front, rows, cols) + [last]
  {
    NextRow(rows, cols);
    var flat := front + last;
    assert flat[..rows * cols] == front[..rows * cols];
    ChunksReadsPrefix(flat, front, rows, cols);
    assert flat[rows * cols .. (rows + 1) * cols] == last;
  }

  /** Cutting a flat plane into rows and laying them end to end gives back its first `rows * cols` pixels. */
  lemma {:induction false} ConcatChunks(pixels: seq<int>, rows: nat, cols: nat)
    requires rows * cols <= |pixels|
    ensures RowsAtLeast(Chunks(pixels, rows, cols), cols)
    ensures Concat(Chunks(pixels, rows, cols), cols) == pixels[..rows * cols]
    decreases rows
  {
    if rows > 0 {
      NextRow(rows - 1, cols);
      var a, b := (rows - 1) * cols, rows * cols;
      var last := pixels[a..b];
      ConcatChunks(pixels, rows - 1, cols);
      ConcatAppend(Chunks(pixels, rows - 1, cols), last, cols);
      assert last[..cols] == last;
      assert pixels[..b] == pixels[..a] + last;
    }
  }

  /** Adding row `row` to the rows already laid end to end appends its first `cols` elements. */
  lemma {:induction false} ConcatNextRow(q: seq<seq<int>>, row: nat, cols: nat)
    requires row < |q| && RowsAtLeast(q[..row], cols) && |q[row]| >= cols
    ensures RowsAtLeast(q[..row + 1], cols)
    ensures Concat(q[..row + 1], cols) == Concat(q[..row], cols) + q[row][..cols]
  {
    assert q[..row + 1] == q[..row] + [q[row]];
    ConcatAppend(q[..row], q[row], cols);
  }

  /** Round trip flat -> 2D -> flat: `to1D(to2D(p, rows, cols)) == p` whenever `|p| == rows * cols`
      and there is at least one row (so that `to1D` can read the width off row 0). */
  lemma {:induction false} FlatRoundTrip(pixels: seq<int>, rows: nat, cols: nat)
    requires rows >= 1 && |pixels| == rows * cols
    ensures var q := Chunks(pixels, rows, cols);
      |q| > 0 && |q[0]| == cols && RowsAtLeast(q, |q[0]|) && Concat(q, |q[0]|) == pixels
  {
    ChunksShape(pixels, rows, cols);
    ConcatChunks(pixels, rows, cols);
    assert pixels[..rows * cols] == pixels;
  }

  /** Round trip 2D -> flat -> 2D: `to2D(to1D(q), |q|, |q[0]|) == q` for every non-empty rectangular `q`. */
  lemma {:induction false} PlaneRoundTrip(q: seq<seq<int>>, cols: nat)
    requires Rectangular(q, |q|, cols)
    ensures |q| * cols <= |Concat(q, cols)|
    ensures Chunks(Concat(q, cols), |q|, cols) == q
    decreases |q|
  {
    ConcatLength(q, cols);
    if |q| > 0 {
      var n := |q| - 1;
      assert Rectangular(q[..n], n, cols);
      var front := Concat(q[..n], cols);
      PlaneRoundTrip(q[..n], cols);
      ConcatLength(q[..n], cols);
      assert q[n][..cols] == q[n];
      assert Concat(q, cols) == front + q[n];
      ChunksAppend(front, q[n], n, cols);
      assert q == q[..n] + [q[n]];
    }
  }

  /** `to2D(pixels, rows, cols)`: allocates a `rows x cols` array, then copies pixel
      `col + row * cols` into row `row`, column `col`, row after row. */
  method To2D(pixels: seq<int>, rows: int, cols: int) returns (r: Result<seq<seq<int>>>)
    ensures rows < 0 || cols < 0 ==> r == Throws(NegativeArraySize)
    ensures 0 <= rows && 0 <= cols && |pixels| < rows * cols ==> r == Throws(ArrayIndexOutOfBounds)
    ensures 0 <= rows && 0 <= cols && rows * cols <= |pixels| ==> r == Ok(Chunks(pixels, rows, cols))
  {
    if rows < 0 || cols < 0 {
      return Throws(NegativeArraySize);
    }
    var output: seq<seq<int>> := [];
    var row := 0;
    while row < rows
      invariant 0 <= row <= rows
      invariant row * cols <= |pixels|
      invariant output == Chunks(pixels, row, cols)
    {
      NextRow(row, cols);
      var line: seq<int> := [];
      var col := 0;
      while col < cols
        invariant 0 <= col <= cols
        invariant row * cols + col <= |pixels|
        invariant line == pixels[row * cols .. row * cols + col]
      {
        if col + row * cols >= |pixels| {
          IndexBelow(row, col, rows, cols);
          return Throws(ArrayIndexOutOfBounds);
        }
        line := line + [pixels[col + row * cols]];
        col := col + 1;
      }
      output := output + [line];
      row := row + 1;
    }
    return Ok(output);
  }

  /** `to1D(pixels)`: takes the width from row 0, then copies row `row`, column `col`
      to index `row * cols + col`, row after row. */
  method To1D(pixels: seq<seq<int>>) returns (r: Result<seq<int>>)
    ensures |pixels| == 0 ==> r == Throws(ArrayIndexOutOfBounds)
    ensures |pixels| > 0 && !RowsAtLeast(pixels, |pixels[0]|) ==> r == Throws(ArrayIndexOutOfBounds)
    ensures |pixels| > 0 && RowsAtLeast(pixels, |pixels[0]|) ==> r == Ok(Concat(pixels, |pixels[0]|))
  {
    if |pixels| == 0 {
      return Throws(ArrayIndexOutOfBounds);
    }
    var rows := |pixels|;
    var cols := |pixels[0]|;
    var output: seq<int> := [];
    var row := 0;
    while row < rows
      invariant 0 <= row <= rows
      invariant RowsAtLeast(pixels[..row], cols)
      invariant output == Concat(pixels[..row], cols)
    {
      var col := 0;
      while col < cols
        invariant 0 <= col <= cols
        invariant col <= |pixels[row]|
        invariant output == Concat(pixels[..row], cols) + pixels[row][..col]
      {
        if col >= |pixels[row]| {
          return Throws(ArrayIndexOutOfBounds);
        }
        output := output + [pixels[row][col]];
        col := col + 1;
      }
      assert pixels[..row + 1][..row] == pixels[..row];
      row := row + 1;
    }
    assert pixels[..rows] == pixels;
    return Ok(output);
  }
}
